=== FILE: README.md ===
# Page behaviour of a marketing site, modelled in Dafny

`assets/js/site.js` is the browser script of a marketing website. Once the page
loads it wires event listeners that hide the header while the reader scrolls
down, open and close the mobile navigation menus, mark the navigation link of
the current page, stop rubber-band overscroll on touch devices, and ask the
browser to load images outside the hero section lazily.

This project models the decision logic of those listeners, separated from the
browser. Element state becomes immutable records and every listener becomes a
pure transition function:

- `Overscroll` (`overscroll.dfy`): the touch-move cancel predicate and the
  `startY` tracker it reads.
- `HeaderScroll` (`header_scroll.dfy`): the hide/show rule with its 100px
  threshold, and the `{lastScrollY, ticking}` guard that coalesces scroll events
  into at most one animation-frame update. The frame scheduler is a count of
  queued callbacks, and a `Frame` event runs them.
- `MobileMenu` (`mobile_menu.dfy`): toggle/menu pairs with their `hidden` class,
  `aria-expanded` and inline `max-height`, plus the body's shared `menu-open`
  class. The events are button clicks, link clicks and `keyup`, and every pair's
  `keyup` listener runs in registration order.
- `ActiveNav` (`active_nav.dfy`): the `nav-link--active` pass.
- `LazyImages` (`lazy_images.dfy`): the `loading="lazy"` pass over images, with
  hero membership decided from the images' enclosing elements.
- `Optional` (`optional.dfy`): an `Option` type for absent attributes.

Offsets and heights are whole CSS pixels (`int`). The browser's geometry
(`scrollY`, `scrollHeight`, touch coordinates) enters as event parameters.

The `menu-open` class is set on `document.body`, so every toggle/menu pair
shares one flag. The model keeps a single page-level `bodyMenuOpen` rather than
one flag per pair. As a result, with two menus, closing one of them with its
button removes `menu-open` while the other is still open
(`MobileMenu.BodyFlagCanMissOpenMenu`). The weaker invariant still holds:
`menu-open` is present only while some menu is open
(`MobileMenu.RunKeepsBodyFlagBacked`). Setup writes `aria-expanded="false"`
whatever the menu's initial `hidden` class is. So "the button agrees with its
menu" is not true initially (`MobileMenu.SetupMayStartInconsistent`). It
holds from the start when every menu starts hidden
(`MobileMenu.Setup`, `MobileMenu.RunPreservesAriaAgreement`). Otherwise it
becomes true for a pair once that pair is toggled or closed, and after that no
event breaks it.

## Model

| member | source | states |
|---|---|---|
| Overscroll.ScrollTop | assets/js/site.js:25 | the page offset is read, and only a zero (falsy) page offset falls back to the document's scrollTop; the result is zero iff both are |
| Overscroll.ShouldCancel | assets/js/site.js:23-37 | a cancelled move has moved the finger and the page rests at an edge (top or bottom) |
| Overscroll.ShouldCancelIffOverscrolls | assets/js/site.js:28-36 | a move is cancelled exactly when it drags toward an edge the page already rests on, both directions of the equivalence |
| Overscroll.InBoundsNeverCancelled | assets/js/site.js:30-36 | while the page is strictly between top and bottom no move is cancelled |
| Overscroll.ShortPageCancelsEveryMove | assets/js/site.js:25-36 | on a page no taller than the viewport, resting at the top, every move with travel is cancelled and only those |
| Overscroll.InitTouchGuard | assets/js/site.js:16-17 | the touch listeners exist exactly when touch is supported, and the start position begins at 0 |
| Overscroll.OnTouchStart | assets/js/site.js:19-21 | touch start records the touch's page Y when the listeners are installed |
| Overscroll.OnTouchMove | assets/js/site.js:16-40 | without touch support nothing is cancelled; with it, cancelling is exactly overscrolling relative to the recorded start |
| Overscroll.MoveWithoutTravelNotCancelled | assets/js/site.js:19-36 | a move at the touch-start point is never cancelled |
| HeaderScroll.UpdateHeader | assets/js/site.js:55-72 | hidden iff past 100px and strictly below the last offset; accented iff past 100px and not below it (equal offsets count as up) |
| HeaderScroll.AtTopHeaderShownPlain | assets/js/site.js:68-72 | at offsets up to 100px the header is shown and unaccented whatever the last offset |
| HeaderScroll.NeverHiddenAndAccented | assets/js/site.js:60-72 | an update never leaves the header both hidden and accented |
| HeaderScroll.InitTracker | assets/js/site.js:52-53 | setup starts with `lastScrollY` equal to the current offset, `ticking` false, nothing queued and no repaint yet |
| HeaderScroll.RequestTick | assets/js/site.js:78-83 | a frame is queued only when none is outstanding, `ticking` holds afterwards, and the header, the page offset, the last update's offset and the repaint count are untouched |
| HeaderScroll.RunUpdate | assets/js/site.js:55-76 | an update writes the header classes of the hide/show rule for the current and last offsets, records the current offset as `lastScrollY`, clears `ticking`, counts one repaint and leaves the queue alone |
| HeaderScroll.Step | assets/js/site.js:78-85 | scroll and frame events keep at most one update pending; a frame runs all queued updates and leaves none |
| HeaderScroll.RunStaysCoalesced | assets/js/site.js:74-85 | under any sequence of scroll and frame events at most one update is pending |
| HeaderScroll.RepaintsBoundedByFrames | assets/js/site.js:74-85 | the header is recomputed no more often than frames are rendered |
| HeaderScroll.BurstQueuesOneUpdate | assets/js/site.js:78-85 | any nonempty burst of scrolls only moves the page and leaves exactly one update queued |
| HeaderScroll.BurstThenFrameRepaintsOnce | assets/js/site.js:55-85 | a burst followed by a frame repaints exactly once, comparing the burst's last offset with the previous update's offset |
| HeaderScroll.RunKeepsHeaderSettled | assets/js/site.js:55-76 | once the header agrees with the last update's offset (hidden or accented only past 100px, never both) every later event keeps that |
| MobileMenu.Register | assets/js/site.js:97-107 | buttons without a menu are skipped, every kept button reads `aria-expanded=false`, kept menus come from the targets and all are kept when all resolve |
| MobileMenu.RegisterAppend | assets/js/site.js:97-100 | registering two runs of buttons one after the other keeps both runs' pairs in order: a missing menu drops only its own button |
| MobileMenu.RegisterSingle | assets/js/site.js:98-103 | one button is dropped when its menu is missing and is otherwise kept with `aria-expanded=false` |
| MobileMenu.Setup | assets/js/site.js:97-107 | setup keeps the body's class, registers at most one pair per button with `aria-expanded=false`, and every button agrees with its menu when all menus start hidden |
| MobileMenu.SetupMayStartInconsistent | assets/js/site.js:97-103 | a menu that starts open gets a button saying it is closed |
| MobileMenu.CloseMobileMenu | assets/js/site.js:90-95 | closing yields hidden, zero height, `aria-expanded=false` and no `menu-open`, touching no other pair |
| MobileMenu.CloseMobileMenuIdempotent | assets/js/site.js:90-95 | closing twice equals closing once |
| MobileMenu.ToggleClick | assets/js/site.js:109-115 | a click flips `hidden`; afterwards the button and `menu-open` say whether it is open and the height is the natural height when open, zero when closed; other pairs are untouched |
| MobileMenu.ToggleTwiceRestoresVisibility | assets/js/site.js:109-115 | two clicks restore the visibility and leave the pair consistent |
| MobileMenu.LinkClick | assets/js/site.js:117-122 | following a link in a menu yields the closed state for that pair only |
| MobileMenu.OpenThenLinkClickCloses | assets/js/site.js:109-122 | opening then following a link always ends closed without `menu-open` |
| MobileMenu.KeyUpFrom | assets/js/site.js:124-128 | the listeners run one after another equal the closed form: on Escape exactly the open menus close, and `menu-open` goes iff some menu was open |
| MobileMenu.KeyUp | assets/js/site.js:124-128 | one released key reaches every pair: on Escape exactly the open menus close and `menu-open` goes iff one was open; any other key changes nothing |
| MobileMenu.EscapeClosesOpenMenus | assets/js/site.js:124-128 | Escape closes every open menu and leaves every hidden one as it was |
| MobileMenu.EscapeWhenAllHiddenIsNoop | assets/js/site.js:124-128 | Escape with all menus hidden changes nothing |
| MobileMenu.OtherKeysAreNoop | assets/js/site.js:124-128 | keys other than Escape change nothing |
| MobileMenu.Step | assets/js/site.js:109-128 | a click on an unregistered pair does nothing; a toggle flips its menu and sets `menu-open` to match; a link click closes its menu; clicks leave other pairs alone and keys leave hidden menus alone |
| MobileMenu.StepPreservesConsistency | assets/js/site.js:90-128 | no event breaks a consistent pair, and toggling or closing a pair makes it consistent |
| MobileMenu.RunPreservesConsistency | assets/js/site.js:90-128 | once every pair is consistent (button agrees, an inline height is written, zero when hidden), no event sequence breaks that |
| MobileMenu.RunPreservesAriaAgreement | assets/js/site.js:90-128 | once every button says whether its menu is open, no event sequence breaks that; with `Setup` this covers a freshly loaded page whose menus start hidden |
| MobileMenu.RunKeepsBodyFlagBacked | assets/js/site.js:90-128 | `menu-open` is present only while some menu is open, under any event sequence |
| MobileMenu.BodyFlagCanMissOpenMenu | assets/js/site.js:109-115 | with two menus, shutting one by its button removes `menu-open` while the other is open |
| ActiveNav.MarkActive | assets/js/site.js:134-136 | every link keeps its tag and is active exactly when its tag equals the page |
| ActiveNav.SetActiveNavLink | assets/js/site.js:131-137 | with no page id or an empty one nothing changes; otherwise each link is active iff its tag equals the page id |
| ActiveNav.ExactlyMatchingLinksActive | assets/js/site.js:131-137 | the set of active links is exactly the set tagged with the page id, or unchanged without one |
| ActiveNav.SetActiveNavLinkIdempotent | assets/js/site.js:131-137 | running the pass twice equals running it once |
| ActiveNav.PricingExample | assets/js/site.js:131-137 | page `pricing` with links home, pricing, contact marks only pricing |
| LazyImages.InHeroAppend | assets/js/site.js:172-175 | an image is in the hero set iff either part of its chain of enclosing elements holds a hero candidate (the union that `flatMap` over the candidates builds) |
| LazyImages.InHeroSingle | assets/js/site.js:172 | one enclosing element makes an image a hero image iff it has `data-section="hero"` or id `hero` |
| LazyImages.AnnotateLazy | assets/js/site.js:172-181 | an image changes iff it is outside every hero section and has no `loading` attribute, and such an image gets `loading="lazy"` |
| LazyImages.AfterPassOutsideHeroDeclaresLoading | assets/js/site.js:172-181 | after the pass every non-hero image declares `loading`; hero images and images that declared it are unchanged |
| LazyImages.AnnotateLazyIdempotent | assets/js/site.js:172-181 | a second pass changes nothing |

## Left out

- Reduced-motion sync (assets/js/site.js:2-11): it only copies a media-query boolean onto a class.
- Floating call-to-action (assets/js/site.js:157-170): its behaviour is the browser's `IntersectionObserver` threshold semantics.
- The commented-out scroll-progress block (assets/js/site.js:141-155): dead code.
- Element lookup (`querySelector`, `querySelectorAll`, `getElementById`), `link.blur()`, passive listener options and `requestAnimationFrame` timing: these are browser plumbing. Lookup results enter as parameters: the resolved menus, the `data-nav` links, the images with their enclosing elements.
- A missing `.site-header` (assets/js/site.js:49-50): no scroll listener is installed, so there is nothing to model.
- The `aria-controls` and `data-mobile-menu` attributes written at setup (assets/js/site.js:102-107): markup only. Only the initial `aria-expanded="false"` is modelled.
- Two toggle buttons that name the same menu id: each registered pair is modelled as owning a distinct menu.
- Floating-point geometry: offsets, touch coordinates and heights are integers, and `max-height` is a pixel count instead of a `"...px"` string.
- `pageYOffset` values that are not numbers: the `||` fallback is modelled only for the falsy value 0.

=== FILE: active_nav.dfy ===
/**
 Model of `setActiveNavLink` in `assets/js/site.js`: once at load, every
 element carrying `data-nav` gets the `nav-link--active` class exactly when
 its `data-nav` value equals the body's `data-page` value.
 */
module ActiveNav {
  import opened Optional

  /** An element with a `data-nav` attribute, and whether it has the
      `nav-link--active` class. */
  datatype NavLink = NavLink(nav: string, active: bool)

  /** `if (!currentPage) return;` -- a missing attribute and an empty string
      are both falsy. */
  predicate HasPageId(pageId: Option<string>)
  {
    pageId.Some? && pageId.value != ""
  }

  /** Force every link's class to `nav == page`. */
  function MarkActive(page: string, links: seq<NavLink>): (r: seq<NavLink>)
    ensures |r| == |links|
    ensures forall k :: 0 <= k < |r| ==> r[k].nav == links[k].nav
    ensures forall k :: 0 <= k < |r| ==> (r[k].active <==> links[k].nav == page)
    decreases |links|
  {
    if |links| == 0 then []
    else [links[0].(active := links[0].nav == page)] + MarkActive(page, links[1..])
  }

  function SetActiveNavLink(pageId: Option<string>, links: seq<NavLink>): (r: seq<NavLink>)
    ensures !HasPageId(pageId) ==> r == links
    ensures |r| == |links|
    ensures forall k :: 0 <= k < |r| ==> r[k].nav == links[k].nav
    ensures HasPageId(pageId) ==> forall k :: 0 <= k < |r| ==> (r[k].active <==> links[k].nav == pageId.value)
  {
    if !HasPageId(pageId) then links else MarkActive(pageId.value, links)
  }

  function ActiveIndices(links: seq<NavLink>): set<nat>
  {
    set k: nat | k < |links| && links[k].active
  }

  function MatchingIndices(links: seq<NavLink>, page: string): set<nat>
  {
    set k: nat | k < |links| && links[k].nav == page
  }

  /** With a page id, the active links are exactly the ones tagged with it,
      whatever was active before; without one, the active links stay as
      they were. */
  lemma ExactlyMatchingLinksActive(pageId: Option<string>, links: seq<NavLink>)
    ensures HasPageId(pageId) ==> ActiveIndices(SetActiveNavLink(pageId, links)) == MatchingIndices(links, pageId.value)
    ensures !HasPageId(pageId) ==> ActiveIndices(SetActiveNavLink(pageId, links)) == ActiveIndices(links)
  {
  }

  /** Running the pass a second time changes nothing. */
  lemma SetActiveNavLinkIdempotent(pageId: Option<string>, links: seq<NavLink>)
    ensures SetActiveNavLink(pageId, SetActiveNavLink(pageId, links)) == SetActiveNavLink(pageId, links)
  {
  }

  /** Page `pricing` with links tagged home, pricing, contact: only the
      second link is active. */
  lemma PricingExample()
    ensures var r := SetActiveNavLink(Some("pricing"),
              [NavLink("home", true), NavLink("pricing", false), NavLink("contact", false)]);
      r == [NavLink("home", false), NavLink("pricing", true), NavLink("contact", false)]
  {
  }
}

=== FILE: header_scroll.dfy ===
/**
 Model of the header hide/show behaviour of `assets/js/site.js`.

 Each scroll event asks for an animation frame, but a `ticking` flag lets at
 most one request be outstanding; when the frame runs, `updateHeader` compares
 the current offset with the offset of the previous update and sets the
 header's `hidden` and `shadow-enhance` classes. The browser's frame scheduler
 is modelled as a count of queued callbacks that a `Frame` event runs.
 */
module HeaderScroll {

  /** Offset in CSS pixels up to which the header is always shown. */
  const HideThreshold: int := 100

  datatype Direction = Down | Up

  /** The two classes of `.site-header` the scroll logic manages. */
  datatype Header = Header(hidden: bool, shadowEnhance: bool)

  /** Strictly greater offsets are "down"; equal offsets count as "up". */
  function DirectionOf(scrollY: int, lastScrollY: int): Direction
  {
    if scrollY > lastScrollY then Down else Up
  }

  /** The classes `updateHeader` leaves on the header. Every branch writes
      both classes, so the result does not depend on what the header showed
      before. */
  function UpdateHeader(scrollY: int, lastScrollY: int): (h: Header)
    ensures h.hidden <==> scrollY > HideThreshold && scrollY > lastScrollY
    ensures h.shadowEnhance <==> scrollY > HideThreshold && scrollY <= lastScrollY
  {
    if scrollY > HideThreshold then
      match DirectionOf(scrollY, lastScrollY)
      case Down => Header(true, false)
      case Up => Header(false, true)
    else
      Header(false, false)
  }

  /** Near the top the header is shown plainly, whatever the last offset. */
  lemma AtTopHeaderShownPlain(scrollY: int, lastScrollY: int)
    requires scrollY <= HideThreshold
    ensures UpdateHeader(scrollY, lastScrollY) == Header(false, false)
  {
  }

  /** A header update never both hides the header and accents it. */
  lemma NeverHiddenAndAccented(scrollY: int, lastScrollY: int)
    ensures !(UpdateHeader(scrollY, lastScrollY).hidden && UpdateHeader(scrollY, lastScrollY).shadowEnhance)
  {
  }

  /** The closure state of `setupHeaderScroll` together with the browser
      state it reads. */
  datatype Tracker = Tracker(
    scrollY: int,      // window.scrollY as the browser reports it now
    lastScrollY: int,  // the offset seen by the previous header update
    ticking: bool,     // an update has been requested and has not yet run
    queued: nat,       // updateHeader callbacks waiting for the next frame
    header: Header,
    repaints: nat)     // how many times updateHeader has run

  /** At most one update is outstanding, and `ticking` says whether one is. */
  predicate Coalesced(t: Tracker)
  {
    t.queued <= 1 && (t.ticking <==> t.queued == 1)
  }

  /** Setup: `lastScrollY` starts at the current offset and nothing is queued. */
  function InitTracker(scrollY: int, header: Header): (t: Tracker)
    ensures Coalesced(t)
    ensures !t.ticking && t.queued == 0 && t.repaints == 0
    ensures t.lastScrollY == t.scrollY == scrollY && t.header == header
  {
    Tracker(scrollY, scrollY, false, 0, header, 0)
  }

  /** `requestTick`: queue an update only when none is outstanding. */
  function RequestTick(t: Tracker): (r: Tracker)
    ensures r.ticking
    ensures r.queued == if t.ticking then t.queued else t.queued + 1
    ensures Coalesced(t) ==> Coalesced(r)
    ensures r.header == t.header && r.lastScrollY == t.lastScrollY && r.repaints == t.repaints
    ensures r.scrollY == t.scrollY
  {
    if !t.ticking then t.(queued := t.queued + 1, ticking := true) else t
  }

  /** One run of `updateHeader` at the current offset. */
  function RunUpdate(t: Tracker): (r: Tracker)
    ensures r.header == UpdateHeader(t.scrollY, t.lastScrollY)
    ensures r.lastScrollY == r.scrollY == t.scrollY
    ensures !r.ticking
    ensures r.queued == t.queued
    ensures r.repaints == t.repaints + 1
  {
    t.(header := UpdateHeader(t.scrollY, t.lastScrollY),
       lastScrollY := t.scrollY,
       ticking := false,
       repaints := t.repaints + 1)
  }

  function RunQueued(t: Tracker, k: nat): Tracker
    decreases k
  {
    if k == 0 then t else RunQueued(RunUpdate(t), k - 1)
  }

  datatype Event = Scroll(y: int) | Frame

  /** A scroll moves the page and fires the listener; a frame runs every
      queued callback. */
  function Step(t: Tracker, e: Event): (r: Tracker)
    ensures Coalesced(t) ==> Coalesced(r)
    ensures Coalesced(t) && e.Frame? ==> r.queued == 0 && r.repaints == t.repaints + t.queued
  {
    match e
    case Scroll(y) => RequestTick(t.(scrollY := y))
    case Frame =>
      var q := t.queued;
      var r := RunQueued(t.(queued := 0), q);
      assert q == 1 ==> r == RunUpdate(t.(queued := 0));
      r
  }

  function Run(t: Tracker, es: seq<Event>): Tracker
    decreases |es|
  {
    if |es| == 0 then t else Run(Step(t, es[0]), es[1..])
  }

  function Frames(es: seq<Event>): nat
    decreases |es|
  {
    if |es| == 0 then 0 else (if es[0].Frame? then 1 else 0) + Frames(es[1..])
  }

  /** Whatever events arrive, at most one header update is ever pending. */
  lemma {:induction false} RunStaysCoalesced(t: Tracker, es: seq<Event>)
    requires Coalesced(t)
    ensures Coalesced(Run(t, es))
    decreases |es|
  {
    if |es| > 0 {
      RunStaysCoalesced(Step(t, es[0]), es[1..]);
    }
  }

  /** The header is recomputed at most once per rendered frame: no run of
      events repaints more often than it contains frames. */
  lemma {:induction false} RepaintsBoundedByFrames(t: Tracker, es: seq<Event>)
    requires Coalesced(t)
    ensures Run(t, es).repaints <= t.repaints + Frames(es)
    decreases |es|
  {
    if |es| > 0 {
      RepaintsBoundedByFrames(Step(t, es[0]), es[1..]);
    }
  }

  function Scrolls(ys: seq<int>): (es: seq<Event>)
    ensures |es| == |ys|
    ensures forall k :: 0 <= k < |ys| ==> es[k] == Scroll(ys[k])
  {
    seq(|ys|, k requires 0 <= k < |ys| => Scroll(ys[k]))
  }

  lemma {:induction false} RunAppend(t: Tracker, a: seq<Event>, b: seq<Event>)
    ensures Run(t, a + b) == Run(Run(t, a), b)
    decreases |a|
  {
    if |a| > 0 {
      assert (a + b)[0] == a[0];
      assert (a + b)[1..] == a[1..] + b;
      RunAppend(Step(t, a[0]), a[1..], b);
    } else {
      assert a + b == b;
    }
  }

  /** A burst of scroll events only moves the page and leaves one update queued. */
  lemma {:induction false} BurstQueuesOneUpdate(t: Tracker, ys: seq<int>)
    requires Coalesced(t) && |ys| > 0
    ensures Run(t, Scrolls(ys)) == t.(scrollY := ys[|ys| - 1], ticking := true, queued := 1)
    decreases |ys|
  {
    var es := Scrolls(ys);
    var t' := Step(t, es[0]);
    if |ys| > 1 {
      assert es[1..] == Scrolls(ys[1..]);
      BurstQueuesOneUpdate(t', ys[1..]);
    }
  }

  /** Any burst of scroll events before a frame yields exactly one header
      update, made against the last offset of the burst and the offset of the
      previous update; the offsets in between are never looked at. */
  lemma BurstThenFrameRepaintsOnce(t: Tracker, ys: seq<int>)
    requires Coalesced(t) && |ys| > 0
    ensures var r := Run(t, Scrolls(ys) + [Frame]);
      && r.repaints == t.repaints + 1
      && r.header == UpdateHeader(ys[|ys| - 1], t.lastScrollY)
      && r.lastScrollY == ys[|ys| - 1]
      && !r.ticking && r.queued == 0
  {
    RunAppend(t, Scrolls(ys), [Frame]);
    BurstQueuesOneUpdate(t, ys);
    var m := Run(t, Scrolls(ys));
    assert Run(m, [Frame]) == Step(m, Frame);
  }

  /** The header agrees with the offset of the last update: it is only ever
      hidden or accented past the threshold, and never both. */
  predicate HeaderSettled(t: Tracker)
  {
    && !(t.header.hidden && t.header.shadowEnhance)
    && (t.header.hidden || t.header.shadowEnhance ==> t.lastScrollY > HideThreshold)
  }

  /** Once the header agrees with the last update, it keeps agreeing. */
  lemma {:induction false} RunKeepsHeaderSettled(t: Tracker, es: seq<Event>)
    requires Coalesced(t) && HeaderSettled(t)
    ensures HeaderSettled(Run(t, es))
    decreases |es|
  {
    if |es| > 0 {
      var t' := Step(t, es[0]);
      if es[0].Frame? && t.queued == 1 {
        assert t' == RunUpdate(t.(queued := 0));
      }
      RunKeepsHeaderSettled(t', es[1..]);
    }
  }
}

=== FILE: lazy_images.dfy ===
/**
 Model of the image pass at the end of `assets/js/site.js`: every image that
 is neither inside a hero section nor already carries a `loading` attribute
 gets `loading="lazy"`.
 */
module LazyImages {
  import opened Optional

  /** An element enclosing an image, with the two attributes that mark a
      hero section: `data-section` and `id`. */
  datatype Container = Container(dataSection: Option<string>, id: Option<string>)

  /** An `<img>`: its enclosing elements and its `loading` attribute. */
  datatype Image = Image(ancestors: seq<Container>, loading: Option<string>)

  const Lazy: string := "lazy"

  /** Matches the selector `[data-section="hero"], #hero`. */
  predicate IsHeroContainer(c: Container)
  {
    c.dataSection == Some("hero") || c.id == Some("hero")
  }

  /** The image is a descendant of some hero candidate. */
  predicate InHero(img: Image)
  {
    exists k :: 0 <= k < |img.ancestors| && IsHeroContainer(img.ancestors[k])
  }

  /** The hero set is a union over the hero candidates: an image is in it
      when either part of its chain of enclosing elements holds a candidate. */
  lemma InHeroAppend(a: seq<Container>, b: seq<Container>, loading: Option<string>)
    ensures InHero(Image(a + b, loading)) <==> InHero(Image(a, loading)) || InHero(Image(b, loading))
  {
    var ab := a + b;
    if InHero(Image(ab, loading)) {
      var k :| 0 <= k < |ab| && IsHeroContainer(ab[k]);
      if k < |a| {
        assert ab[k] == a[k];
      } else {
        assert ab[k] == b[k - |a|];
      }
    }
    if InHero(Image(a, loading)) {
      var k :| 0 <= k < |a| && IsHeroContainer(a[k]);
      assert ab[k] == a[k];
    }
    if InHero(Image(b, loading)) {
      var k :| 0 <= k < |b| && IsHeroContainer(b[k]);
      assert ab[|a| + k] == b[k];
    }
  }

  /** One enclosing element puts the image in the hero set exactly when it
      matches `[data-section="hero"]` or `#hero`. With `InHeroAppend` this
      fixes hero membership for every chain of enclosing elements. */
  lemma InHeroSingle(c: Container, loading: Option<string>)
    ensures InHero(Image([c], loading)) <==> c.dataSection == Some("hero") || c.id == Some("hero")
  {
    assert [c][0] == c;
  }

  /** Eligible for deferred loading: outside every hero section and without
      a declared `loading` attribute (of any value, the empty string included). */
  predicate Eligible(img: Image)
  {
    !InHero(img) && img.loading.None?
  }

  function AnnotateLazy(imgs: seq<Image>): (r: seq<Image>)
    ensures |r| == |imgs|
    ensures forall k :: 0 <= k < |r| ==> r[k].ancestors == imgs[k].ancestors
    ensures forall k :: 0 <= k < |r| ==> (r[k] != imgs[k] <==> Eligible(imgs[k]))
    ensures forall k :: 0 <= k < |r| && Eligible(imgs[k]) ==> r[k].loading == Some(Lazy)
    decreases |imgs|
  {
    if |imgs| == 0 then []
    else
      var img := imgs[0];
      var img' := if !InHero(img) && !img.loading.Some? then img.(loading := Some(Lazy)) else img;
      [img'] + AnnotateLazy(imgs[1..])
  }

  /** After the pass every image outside the hero sections declares how it
      loads, and hero images and images that already declared it are
      exactly as they were. */
  lemma AfterPassOutsideHeroDeclaresLoading(imgs: seq<Image>)
    ensures var r := AnnotateLazy(imgs);
      && (forall k :: 0 <= k < |r| && !InHero(imgs[k]) ==> r[k].loading.Some?)
      && (forall k :: 0 <= k < |r| && InHero(imgs[k]) ==> r[k] == imgs[k])
      && (forall k :: 0 <= k < |r| && imgs[k].loading.Some? ==> r[k] == imgs[k])
  {
  }

  /** The pass leaves nothing for a second pass to do. */
  lemma AnnotateLazyIdempotent(imgs: seq<Image>)
    ensures AnnotateLazy(AnnotateLazy(imgs)) == AnnotateLazy(imgs)
  {
  }
}

=== FILE: mobile_menu.dfy ===
/**
 Model of the mobile navigation menus of `assets/js/site.js`.

 Every `[data-nav-toggle]` button whose referenced menu exists forms a
 toggle/menu pair with three listeners: a click on the button toggles the
 menu, a click on a link inside the menu closes it, and a document-level
 `keyup` listener closes it on Escape. The `menu-open` class lives on
 `document.body`, which all pairs share, so it is one page-level flag.
 */
module MobileMenu {
  import opened Optional

  /** The state of one pair: the menu's `hidden` class, the button's
      `aria-expanded` attribute and the menu's inline `max-height` in pixels
      (None while no inline value has been written). */
  datatype Menu = Menu(hidden: bool, ariaExpanded: bool, maxHeight: Option<nat>)

  /** All registered pairs in registration order, and the body's `menu-open` class. */
  datatype MobileNav = MobileNav(menus: seq<Menu>, bodyMenuOpen: bool)

  const Escape: string := "Escape"

  /** What `closeMobileMenu` leaves on a pair, whatever it held before. */
  const ClosedMenu: Menu := Menu(true, false, Some(0))

  predicate IsOpen(m: Menu)
  {
    !m.hidden
  }

  /** The button describes the menu truthfully and the inline height agrees
      with the visibility. */
  predicate Consistent(m: Menu)
  {
    && m.ariaExpanded == IsOpen(m)
    && m.maxHeight.Some?
    && (m.hidden ==> m.maxHeight == Some(0))
  }

  predicate AllConsistent(n: MobileNav)
  {
    forall k :: 0 <= k < |n.menus| ==> Consistent(n.menus[k])
  }

  /** `m` is what registration makes of one of the resolved targets. */
  predicate RegisteredFrom(targets: seq<Option<Menu>>, m: Menu)
  {
    exists j :: 0 <= j < |targets| && targets[j].Some? && m == targets[j].value.(ariaExpanded := false)
  }

  lemma RegisteredFromTail(targets: seq<Option<Menu>>, ms: seq<Menu>)
    requires |targets| > 0
    requires forall k :: 0 <= k < |ms| ==> RegisteredFrom(targets[1..], ms[k])
    ensures forall k :: 0 <= k < |ms| ==> RegisteredFrom(targets, ms[k])
  {
    forall k | 0 <= k < |ms|
      ensures RegisteredFrom(targets, ms[k])
    {
      var j :| 0 <= j < |targets| - 1 && targets[1..][j].Some? && ms[k] == targets[1..][j].value.(ariaExpanded := false);
      assert targets[j + 1] == targets[1..][j];
    }
  }

  /** Registration: buttons whose menu is missing are skipped; every kept
      button gets `aria-expanded="false"` whatever its menu shows. */
  function Register(targets: seq<Option<Menu>>): (ms: seq<Menu>)
    ensures |ms| <= |targets|
    ensures forall k :: 0 <= k < |ms| ==> !ms[k].ariaExpanded
    ensures forall k :: 0 <= k < |ms| ==> RegisteredFrom(targets, ms[k])
    ensures (forall j :: 0 <= j < |targets| ==> targets[j].Some?) ==>
      |ms| == |targets| && forall k :: 0 <= k < |ms| ==> ms[k] == targets[k].value.(ariaExpanded := false)
    decreases |targets|
  {
    if |targets| == 0 then []
    else
      var rest := Register(targets[1..]);
      RegisteredFromTail(targets, rest);
      match targets[0]
      case None => rest
      case Some(m) => [m.(ariaExpanded := false)] + rest
  }

  /** Registration keeps the buttons of either half of the page in order:
      a missing menu drops only its own button. */
  lemma {:induction false} RegisterAppend(a: seq<Option<Menu>>, b: seq<Option<Menu>>)
    ensures Register(a + b) == Register(a) + Register(b)
    decreases |a|
  {
    if |a| == 0 {
      assert a + b == b;
    } else {
      assert (a + b)[0] == a[0];
      assert (a + b)[1..] == a[1..] + b;
      RegisterAppend(a[1..], b);
    }
  }

  /** A single button: skipped when its menu is missing, otherwise kept with
      `aria-expanded="false"`. With `RegisterAppend` this fixes the result
      for every list of buttons. */
  lemma RegisterSingle(t: Option<Menu>)
    ensures t.None? ==> Register([t]) == []
    ensures t.Some? ==> Register([t]) == [t.value.(ariaExpanded := false)]
  {
  }

  /** Each button says whether its menu is open. */
  predicate AriaAgrees(n: MobileNav)
  {
    forall k :: 0 <= k < |n.menus| ==> n.menus[k].ariaExpanded == IsOpen(n.menus[k])
  }

  /** Page load: register the pairs; the body keeps whatever `menu-open`
      class the markup gave it. */
  function Setup(targets: seq<Option<Menu>>, bodyMenuOpen: bool): (n: MobileNav)
    ensures n.bodyMenuOpen == bodyMenuOpen
    ensures |n.menus| <= |targets|
    ensures forall k :: 0 <= k < |n.menus| ==> !n.menus[k].ariaExpanded
    ensures (forall j :: 0 <= j < |targets| && targets[j].Some? ==> targets[j].value.hidden) ==> AriaAgrees(n)
  {
    MobileNav(Register(targets), bodyMenuOpen)
  }

  /** Setup does not make the button agree with a menu that starts open. */
  lemma SetupMayStartInconsistent()
    ensures !AllConsistent(Setup([Some(Menu(false, false, None))], false))
  {
  }

  /** `closeMobileMenu(btn, menu)` for pair `i`. */
  function CloseMobileMenu(n: MobileNav, i: nat): (r: MobileNav)
    requires i < |n.menus|
    ensures |r.menus| == |n.menus|
    ensures r.menus[i] == ClosedMenu && !IsOpen(r.menus[i]) && Consistent(r.menus[i])
    ensures !r.bodyMenuOpen
    ensures forall k :: 0 <= k < |n.menus| && k != i ==> r.menus[k] == n.menus[k]
  {
    n.(menus := n.menus[i := ClosedMenu], bodyMenuOpen := false)
  }

  /** Closing twice is the same as closing once. */
  lemma CloseMobileMenuIdempotent(n: MobileNav, i: nat)
    requires i < |n.menus|
    ensures CloseMobileMenu(CloseMobileMenu(n, i), i) == CloseMobileMenu(n, i)
  {
  }

  /** A click on the toggle button of pair `i`; `scrollHeight` is the menu's
      natural height at that moment. */
  function ToggleClick(n: MobileNav, i: nat, scrollHeight: nat): (r: MobileNav)
    requires i < |n.menus|
    ensures |r.menus| == |n.menus|
    ensures r.menus[i].hidden == !n.menus[i].hidden
    ensures r.menus[i].ariaExpanded == IsOpen(r.menus[i])
    ensures r.bodyMenuOpen == IsOpen(r.menus[i])
    ensures r.menus[i].maxHeight == Some(if IsOpen(r.menus[i]) then scrollHeight else 0)
    ensures forall k :: 0 <= k < |n.menus| && k != i ==> r.menus[k] == n.menus[k]
  {
    var hidden := !n.menus[i].hidden;
    var isOpen := !hidden;
    var m := Menu(hidden, isOpen, Some(if isOpen then scrollHeight else 0));
    n.(menus := n.menus[i := m], bodyMenuOpen := isOpen)
  }

  /** Two clicks on the same button bring the menu back to where it was and
      leave the button truthful. */
  lemma ToggleTwiceRestoresVisibility(n: MobileNav, i: nat, h1: nat, h2: nat)
    requires i < |n.menus|
    ensures var r := ToggleClick(ToggleClick(n, i, h1), i, h2);
      r.menus[i].hidden == n.menus[i].hidden && Consistent(r.menus[i])
  {
  }

  /** A click on any link inside the menu of pair `i`. */
  function LinkClick(n: MobileNav, i: nat): (r: MobileNav)
    requires i < |n.menus|
    ensures |r.menus| == |n.menus|
    ensures r.menus[i] == ClosedMenu && !r.bodyMenuOpen
    ensures forall k :: 0 <= k < |n.menus| && k != i ==> r.menus[k] == n.menus[k]
  {
    CloseMobileMenu(n, i)
  }

  /** Opening a menu and then following one of its links always ends closed. */
  lemma OpenThenLinkClickCloses(n: MobileNav, i: nat, h: nat)
    requires i < |n.menus|
    ensures var r := LinkClick(ToggleClick(n, i, h), i);
      r.menus[i] == ClosedMenu && !r.bodyMenuOpen
  {
  }

  predicate AnyOpenFrom(menus: seq<Menu>, j: nat)
  {
    exists k :: j <= k < |menus| && IsOpen(menus[k])
  }

  /** The `keyup` listeners of pairs `j`, `j+1`, ... run in registration
      order; each closes its own menu on Escape when that menu is open. */
  function KeyUpFrom(n: MobileNav, key: string, j: nat): (r: MobileNav)
    requires j <= |n.menus|
    ensures |r.menus| == |n.menus|
    ensures forall k :: 0 <= k < |n.menus| ==>
      r.menus[k] == if j <= k && key == Escape && IsOpen(n.menus[k]) then ClosedMenu else n.menus[k]
    ensures r.bodyMenuOpen == if key == Escape && AnyOpenFrom(n.menus, j) then false else n.bodyMenuOpen
    decreases |n.menus| - j
  {
    if j == |n.menus| then n
    else
      var n' := if key == Escape && IsOpen(n.menus[j]) then CloseMobileMenu(n, j) else n;
      assert AnyOpenFrom(n.menus, j) <==> IsOpen(n.menus[j]) || AnyOpenFrom(n.menus, j + 1);
      assert forall k :: j < k < |n.menus| ==> n'.menus[k] == n.menus[k];
      assert AnyOpenFrom(n'.menus, j + 1) <==> AnyOpenFrom(n.menus, j + 1);
      KeyUpFrom(n', key, j + 1)
  }

  /** A key released anywhere in the document reaches every pair's listener. */
  function KeyUp(n: MobileNav, key: string): (r: MobileNav)
    ensures |r.menus| == |n.menus|
    ensures forall k :: 0 <= k < |n.menus| ==>
      r.menus[k] == if key == Escape && IsOpen(n.menus[k]) then ClosedMenu else n.menus[k]
    ensures r.bodyMenuOpen <==> n.bodyMenuOpen && !(key == Escape && AnyOpenFrom(n.menus, 0))
  {
    KeyUpFrom(n, key, 0)
  }

  /** Escape closes exactly the open menus and leaves the hidden ones as
      they were; `menu-open` goes only if some menu was open. */
  lemma EscapeClosesOpenMenus(n: MobileNav)
    ensures var r := KeyUp(n, Escape);
      && |r.menus| == |n.menus|
      && (forall k :: 0 <= k < |n.menus| && IsOpen(n.menus[k]) ==> r.menus[k] == ClosedMenu)
      && (forall k :: 0 <= k < |n.menus| && !IsOpen(n.menus[k]) ==> r.menus[k] == n.menus[k])
      && (r.bodyMenuOpen <==> n.bodyMenuOpen && !AnyOpenFrom(n.menus, 0))
  {
  }

  /** With every menu hidden, Escape changes nothing at all. */
  lemma EscapeWhenAllHiddenIsNoop(n: MobileNav)
    requires forall k :: 0 <= k < |n.menus| ==> !IsOpen(n.menus[k])
    ensures KeyUp(n, Escape) == n
  {
  }

  /** Any key other than Escape changes nothing. */
  lemma OtherKeysAreNoop(n: MobileNav, key: string)
    requires key != Escape
    ensures KeyUp(n, key) == n
  {
  }

  datatype MenuEvent = ToggleClicked(pair: nat, scrollHeight: nat) | LinkClicked(pair: nat) | KeyReleased(key: string)

  /** Dispatch one user event. A click aimed at a pair that was never
      registered reaches no listener. */
  function Step(n: MobileNav, e: MenuEvent): (r: MobileNav)
    ensures |r.menus| == |n.menus|
    ensures !e.KeyReleased? && e.pair >= |n.menus| ==> r == n
    ensures e.ToggleClicked? && e.pair < |n.menus| ==>
      r.menus[e.pair].hidden != n.menus[e.pair].hidden && r.bodyMenuOpen == IsOpen(r.menus[e.pair])
    ensures e.LinkClicked? && e.pair < |n.menus| ==> r.menus[e.pair] == ClosedMenu && !r.bodyMenuOpen
    ensures !e.KeyReleased? ==> forall k :: 0 <= k < |n.menus| && k != e.pair ==> r.menus[k] == n.menus[k]
    ensures e.KeyReleased? ==> forall k :: 0 <= k < |n.menus| && !IsOpen(n.menus[k]) ==> r.menus[k] == n.menus[k]
  {
    match e
    case ToggleClicked(i, h) => if i < |n.menus| then ToggleClick(n, i, h) else n
    case LinkClicked(i) => if i < |n.menus| then LinkClick(n, i) else n
    case KeyReleased(key) => KeyUp(n, key)
  }

  function Run(n: MobileNav, es: seq<MenuEvent>): (r: MobileNav)
    decreases |es|
  {
    if |es| == 0 then n else Run(Step(n, es[0]), es[1..])
  }

  /** Every event keeps each menu consistent, and a menu the event toggles or
      closes becomes consistent even if it was not before. */
  lemma StepPreservesConsistency(n: MobileNav, e: MenuEvent, k: nat)
    requires k < |n.menus|
    ensures Consistent(n.menus[k]) ==> Consistent(Step(n, e).menus[k])
    ensures (e.ToggleClicked? || e.LinkClicked?) && e.pair == k ==> Consistent(Step(n, e).menus[k])
  {
  }

  /** Once every button agrees with its menu, no sequence of events breaks that. */
  lemma {:induction false} RunPreservesConsistency(n: MobileNav, es: seq<MenuEvent>)
    requires AllConsistent(n)
    ensures AllConsistent(Run(n, es))
    decreases |es|
  {
    if |es| > 0 {
      var n' := Step(n, es[0]);
      forall k | 0 <= k < |n.menus|
        ensures Consistent(n'.menus[k])
      {
        StepPreservesConsistency(n, es[0], k);
      }
      RunPreservesConsistency(n', es[1..]);
    }
  }

  /** Once every button says whether its menu is open, no sequence of events
      breaks that; `Setup` gives this when every menu starts hidden. */
  lemma {:induction false} RunPreservesAriaAgreement(n: MobileNav, es: seq<MenuEvent>)
    requires AriaAgrees(n)
    ensures AriaAgrees(Run(n, es))
    decreases |es|
  {
    if |es| > 0 {
      var n' := Step(n, es[0]);
      assert AriaAgrees(n');
      RunPreservesAriaAgreement(n', es[1..]);
    }
  }

  /** `menu-open` on the body is only ever present while some menu is open. */
  predicate BodyFlagBacked(n: MobileNav)
  {
    n.bodyMenuOpen ==> AnyOpenFrom(n.menus, 0)
  }

  lemma {:induction false} RunKeepsBodyFlagBacked(n: MobileNav, es: seq<MenuEvent>)
    requires BodyFlagBacked(n)
    ensures BodyFlagBacked(Run(n, es))
    decreases |es|
  {
    if |es| > 0 {
      var e := es[0];
      var n' := Step(n, e);
      if e.ToggleClicked? && e.pair < |n.menus| && n'.bodyMenuOpen {
        assert IsOpen(n'.menus[e.pair]);
      } else if e.KeyReleased? && n'.bodyMenuOpen {
        var k :| 0 <= k < |n.menus| && IsOpen(n.menus[k]);
        assert n'.menus[k] == n.menus[k];
      }
      RunKeepsBodyFlagBacked(n', es[1..]);
    }
  }

  /** The converse does not hold: because the body class is shared, closing
      one pair by its button removes `menu-open` while another menu is still
      open. */
  lemma BodyFlagCanMissOpenMenu()
    ensures var n := Run(MobileNav([ClosedMenu, ClosedMenu], false),
                         [ToggleClicked(0, 40), ToggleClicked(1, 40), ToggleClicked(1, 40)]);
      IsOpen(n.menus[0]) && !n.bodyMenuOpen
  {
  }
}

=== FILE: optional.dfy ===
/** An attribute or lookup that may be absent, as `null` is in the DOM. */
module Optional {

  datatype Option<+T> = None | Some(value: T)
}

=== FILE: overscroll.dfy ===
/**
 Model of the touch overscroll guard of `assets/js/site.js`.

 On touch devices the script remembers where the finger went down and, on
 every move, cancels the browser's default scrolling when the user drags past
 the top of the page while already at the top, or past the bottom while
 already at the bottom. Offsets are whole CSS pixels.
 */
module Overscroll {

  /** What the move handler reads from the document when a finger moves. */
  datatype Geometry = Geometry(
    pageYOffset: int,   // window.pageYOffset
    docScrollTop: int,  // document.documentElement.scrollTop
    scrollHeight: int,  // document.documentElement.scrollHeight
    clientHeight: int)  // document.documentElement.clientHeight

  /** `pageYOffset || scrollTop`: a zero page offset is falsy, so the
      document's own scrollTop is read instead. */
  function ScrollTop(g: Geometry): (top: int)
    ensures g.pageYOffset != 0 ==> top == g.pageYOffset
    ensures top == 0 <==> g.pageYOffset == 0 && g.docScrollTop == 0
    ensures top == g.pageYOffset || top == g.docScrollTop
  {
    if g.pageYOffset != 0 then g.pageYOffset else g.docScrollTop
  }

  function MaxScroll(g: Geometry): int
  {
    g.scrollHeight - g.clientHeight
  }

  /** The decision taken by the touch-move handler: true when it calls
      `preventDefault`. Either of the two guards may fire. */
  function ShouldCancel(startY: int, currentY: int, g: Geometry): (cancel: bool)
    ensures cancel ==> currentY != startY
    ensures cancel ==> ScrollTop(g) <= 0 || ScrollTop(g) >= MaxScroll(g)
  {
    var scrollTop := ScrollTop(g);
    var maxScroll := MaxScroll(g);
    (scrollTop <= 0 && currentY > startY) || (scrollTop >= maxScroll && currentY < startY)
  }

  /** Which way the finger travelled since touch start. Moving the finger
      down the screen pulls the page toward its top. */
  datatype Drag = Still | TowardTop | TowardBottom

  function DragOf(startY: int, currentY: int): Drag
  {
    if currentY > startY then TowardTop
    else if currentY < startY then TowardBottom
    else Still
  }

  /** Reference definition of overscroll: pulling toward an edge the page
      already rests on. */
  predicate Overscrolls(d: Drag, g: Geometry)
  {
    || (d == TowardTop && ScrollTop(g) <= 0)
    || (d == TowardBottom && ScrollTop(g) >= MaxScroll(g))
  }

  /** The handler cancels a move exactly when the drag overscrolls. */
  lemma ShouldCancelIffOverscrolls(startY: int, currentY: int, g: Geometry)
    ensures ShouldCancel(startY, currentY, g) <==> Overscrolls(DragOf(startY, currentY), g)
  {
  }

  /** A drag while the page sits strictly between its top and bottom is
      never cancelled, whatever its direction. */
  lemma InBoundsNeverCancelled(startY: int, currentY: int, g: Geometry)
    requires 0 < ScrollTop(g) < MaxScroll(g)
    ensures !ShouldCancel(startY, currentY, g)
  {
  }

  /** On a page no taller than the viewport, resting at the top, every
      movement of the finger is cancelled. */
  lemma ShortPageCancelsEveryMove(startY: int, currentY: int, g: Geometry)
    requires ScrollTop(g) == 0 && MaxScroll(g) <= 0
    ensures ShouldCancel(startY, currentY, g) <==> currentY != startY
  {
  }

  /** The handlers' closure state: whether the listeners were installed
      (`'ontouchstart' in window`) and the last touch-start position, which
      starts at 0. */
  datatype TouchGuard = TouchGuard(installed: bool, startY: int)

  function InitTouchGuard(touchSupported: bool): (t: TouchGuard)
    ensures t.installed == touchSupported && t.startY == 0
  {
    TouchGuard(touchSupported, 0)
  }

  /** `touchstart`: remember the first touch point's page Y. */
  function OnTouchStart(t: TouchGuard, pageY: int): (r: TouchGuard)
    ensures r.installed == t.installed
    ensures r.installed ==> r.startY == pageY
  {
    if t.installed then t.(startY := pageY) else t
  }

  /** `touchmove`: whether the default scroll is cancelled. Without touch
      support no listener exists and nothing is ever cancelled. */
  function OnTouchMove(t: TouchGuard, pageY: int, g: Geometry): (cancel: bool)
    ensures cancel ==> t.installed
    ensures t.installed ==> (cancel <==> Overscrolls(DragOf(t.startY, pageY), g))
  {
    ShouldCancelIffOverscrolls(t.startY, pageY, g);
    t.installed && ShouldCancel(t.startY, pageY, g)
  }

  /** A move that follows a touch start at the same point is never cancelled. */
  lemma MoveWithoutTravelNotCancelled(t: TouchGuard, y: int, g: Geometry)
    ensures !OnTouchMove(OnTouchStart(t, y), y, g)
  {
  }
}
